=== FILE: README.md ===
# loopback prober core in Dafny

A model of the core of `loopback`, an asynchronous UDP latency prober written in Rust. It has three parts:

- **Probe payload codec.** The sender's `get_payload` builds a 192-byte buffer: the probe counter as a big-endian u64, then the send time in microseconds as a big-endian u128, then zero padding. The listener reads the two fields back with a cursor, and each field falls back to 0 when the datagram is too short to hold it. Modules `BigEndian` and `Payload`.
- **History queue and counter correlation.** Each sender tick appends `(timestamp, 1000)` to a queue that holds at most 1000 entries, dropping the front entry when full, and takes the next counter with `fetch_add`. The model takes the append and the increment together as one atomic step. A reply carries a counter. The listener finds that probe's entry purely by arithmetic, `index = len - (sent_counter - counter)`, and overwrites its latency. Module `History`. Module `ProbeLog` relates the bounded queue to an unbounded log in which probe `c` sits at index `c`. That gives the correlation invariant: queue position `i` holds the probe sent with counter `sent_counter - len + i`.
- **Per-minute aggregator.** `group_by_minute` cuts the history into maximal runs of consecutive entries sent in the same minute. `process_group` sorts each run and reports its min, max and median. For an even count, the median is the integer mean of the two middle values. Modules `Sorting` and `Aggregate`.

All state is immutable values and pure functions. The one exception is `group_by_minute`. It is modelled by two methods: `Aggregate.ScanRuns` holds a loop that mirrors the Rust loop, and `Aggregate.GroupByMinute` closes the last run. A Rust panic on unsigned underflow is modelled as an `Outcome.Panic` result, with the site named in `Results.Fault`.

Where the model makes a choice:

- **Last write wins.** A second reply for the same counter overwrites the first one's latency, because the code writes unconditionally (`History.LastWriteWins`). The model does not let the first reply win.
- **Short datagrams.** A short datagram is not rejected. Its fields decode to 0, as `unwrap_or_default` does.
- **Fixed sizes.** The queue bound (1000), the placeholder latency (1000) and the payload size (192) are the code's constants, not configuration.
- **Minute key.** The minute of a probe is `(sent mod 2^64) / 60_000_000`: whole minutes since the epoch, taken after the `sent as u64` cast. It stands in for the chrono (year, month, day, hour, minute) string, which names the same minute wherever chrono can represent the time.

## Model

| member | source | states |
|---|---|---|
| BigEndian.DecodeEncode | src/network/sender.rs:126-127 | reading back the big-endian bytes written for a number of a given width gives that number |
| BigEndian.EncodeDecode | src/network/listener.rs:30-34 | every byte string is the big-endian encoding of the number it decodes to, so encoding at a width is a bijection |
| BigEndian.EncodeInjective | src/network/sender.rs:126-127 | two numbers of one width with the same encoding are equal |
| BigEndian.EncodeUint64 | src/network/sender.rs:126 | `write_u64` writes exactly 8 bytes, and they read back big-endian as the counter |
| BigEndian.EncodeUint128 | src/network/sender.rs:127 | `write_u128` writes exactly 16 bytes, and they read back big-endian as the timestamp |
| Payload.GetPayload | src/network/sender.rs:119-130 | the payload is exactly 192 bytes for every counter and timestamp: bytes 0..8 are the counter big-endian, bytes 8..24 are the timestamp big-endian, bytes 24..192 are zero |
| Payload.ReadBigEndian | src/network/listener.rs:30-34 | a cursor read of `width` bytes succeeds exactly when that many bytes remain; it then yields the number whose `width`-byte big-endian encoding is exactly the next `width` bytes, and advances the cursor by `width`; after a failed read the model puts the cursor at the end of the data, a choice of the model (`read_exact` leaves it unspecified) that nothing depends on, since a datagram too short for the counter is too short for the timestamp |
| Payload.DecodeDatagram | src/network/listener.rs:27-34 | a datagram shorter than 8 bytes decodes to counter 0; one shorter than 24 bytes decodes to timestamp 0; otherwise the fields are the big-endian values of bytes 0..8 and 8..24; no byte outside the datagram is read |
| Payload.RoundTrip | src/network/listener.rs:27-34 | any datagram of 24 bytes or more that starts with the first 24 bytes of `get_payload(c, t)` decodes to counter `c` and timestamp `t`, whatever follows |
| Payload.PaddedRoundTrip | src/network/sender.rs:121-130 | the payload itself, or the payload followed by any number of zero bytes, decodes to the counter and timestamp it was built from |
| Payload.TruncatedPayload | src/network/listener.rs:30-34 | a payload cut to between 8 and 23 bytes still yields its counter, with timestamp 0 |
| Payload.GetPayloadInjective | src/network/sender.rs:121-130 | distinct (counter, timestamp) pairs give distinct payloads |
| Payload.UdpLength | src/network/sender.rs:100 | the UDP length is defined exactly when the packet size is at least 20, and then adding 20 back gives the packet size; below 20 the u16 subtraction panics. The sender never reaches this line with a size below 28, because the `unwrap`s of the IPv4 view (line 79, below 20 bytes) and of the UDP view (line 96, below 28 bytes) panic first |
| History.Increment | src/network/sender.rs:75 | `fetch_add(1)` leaves counter + 1 behind, and 0 after 2^64 - 1 |
| History.Tick | src/network/sender.rs:56-75 | a tick returns the pre-increment counter for the payload and advances the counter by one; from a length of at most 1000 the new length is min(old + 1, 1000); the last entry is `(timestamp, 1000)`; below the bound every old entry keeps its place, and at the bound exactly the front entry is dropped and the rest keep their order |
| History.Resolve | src/network/listener.rs:30-47 | a reply panics exactly when its counter is ahead of the sent counter (u64 underflow) or its age exceeds the queue length (usize underflow); otherwise the length and counter are kept, age 0 changes nothing, and an age of 1 or more sets the latency of entry `len - age` alone |
| History.ResolveChecked | src/network/listener.rs:43-47 | the guarded reply handling never panics, agrees with the unguarded one wherever that does not panic, and changes nothing where it would |
| History.ResolveWrapping | src/network/listener.rs:31-47 | in a release build both subtractions wrap and `get_mut` misses past the end, so a reply changes the counter and length of nothing and sets at most one entry's latency |
| History.WrappingIsChecked | src/network/listener.rs:31-47 | in every state whose queue is no longer than the number of probes sent, the wrapping release build is exactly the guarded step |
| History.LastWriteWins | src/network/listener.rs:45-46 | a second reply for the same counter leaves the same state as if only the second had arrived |
| History.TickAll | src/network/sender.rs:59-75 | the sender loop hands out one counter per tick, the first being the starting counter, and after a non-empty run the last entry is the last tick's `(timestamp, 1000)` |
| History.CountersConsecutive | src/network/sender.rs:75 | until the counter wraps, successive ticks hand out consecutive counters and the sent counter advances by one per tick |
| History.CountersIncrease | src/network/sender.rs:75-94 | until the counter wraps, the counters carried by successive payloads strictly increase, so no two probes share one |
| History.TickAllBounded | src/network/sender.rs:67-72 | any number of ticks keeps a queue of at most 1000 entries within 1000 |
| ProbeLog.TagIsLogIndex | src/network/sender.rs:67-75 | in every state reached before the counter wraps (one a log of the probes sent abstracts), queue position `i` holds the probe sent with counter `sent_counter - len + i` |
| ProbeLog.TickRefines | src/network/sender.rs:67-75 | a tick appends the probe to the log at index equal to the counter its payload carries, and the queue stays the log's last (at most 1000) entries |
| ProbeLog.ResolveRefines | src/network/listener.rs:31-47 | a guarded reply for counter `c` is, on the log, setting the latency of probe `c`; the queue changes only if it still holds probe `c` |
| ProbeLog.ResolveTouchesTagged | src/network/listener.rs:43-47 | given the counter invariant, a reply changes only the entry tagged with its counter, and all other entries stay unchanged |
| ProbeLog.StaleReplyPanics | src/network/listener.rs:44 | a reply for a probe that was evicted panics on `queue.len() - age` |
| ProbeLog.EmptyDatagramPanics | src/network/listener.rs:30-44 | once more than 1000 probes have been sent, an empty datagram decodes to counter 0 and panics the listener |
| ProbeLog.TickBetweenReadAndLock | src/network/listener.rs:31-46 | when a whole tick runs between the listener's counter read (line 31) and its queue lock (line 43), the index it computes names the probe sent after the one the reply is for, and that probe's latency is overwritten |
| ProbeLog.Step | src/network/sender.rs:65-75 | a step is a whole tick, which advances the counter and adds at most one entry, or a guarded reply, which keeps the counter and the length; either keeps a queue within 1000 entries within it |
| ProbeLog.Run | src/network/sender.rs:59-75 | after any interleaving of the two tasks' steps, the counter is the starting counter plus the number of probes sent, modulo 2^64, and the queue grew by at most that many entries |
| ProbeLog.RunRefines | src/network/sender.rs:65-75 | any interleaving of ticks and guarded replies keeps the queue the bounded view of the log, so the correlation invariant holds after every step |
| ProbeLog.AfterWrapDiffers | src/network/listener.rs:31-47 | after the counter wraps, with the counter at 0 and a full queue, the release build writes a reply for counter 2^64 - 1 into the last entry, the probe sent with that counter, while the guarded step drops it |
| ProbeLog.RunBounded | src/network/sender.rs:67-72 | any interleaving of ticks and guarded replies from a queue of at most 1000 entries keeps it within 1000 |
| ProbeLog.QueueBounded | src/network/sender.rs:56-72 | from the initial state, the queue never holds more than 1000 entries, however many steps are taken and whether or not the counter wraps |
| Sorting.Insert | src/web/data.rs:20 | inserting into a sorted list gives a sorted list with the inserted element added to its multiset |
| Sorting.Sort | src/web/data.rs:20 | the sorted latencies are in ascending order and are a permutation of the input |
| Sorting.SortedUnique | src/web/data.rs:20 | two sorted lists with the same multiset are equal, so the result does not depend on the (unstable) sort used |
| Aggregate.MinuteKey | src/web/data.rs:43-54 | the key is the minute whose 60-second window contains the send time |
| Aggregate.ProcessGroup | src/web/data.rs:19-32 | for a non-empty run, min and max are members of the run; min is at most, and max at least, every latency; min ≤ median ≤ max; an odd run's median is one of its latencies |
| Aggregate.MedianOfAnySorting | src/web/data.rs:20-28 | min, max and median are the first element, last element and median of any sorted arrangement of the run |
| Aggregate.OddMedianExample | src/web/data.rs:26-27 | [30, 10, 20] has median 20 |
| Aggregate.EvenMedianExample | src/web/data.rs:23-25 | [40, 10, 30, 20] has median 25, the integer mean of 20 and 30 |
| Aggregate.Runs | src/web/data.rs:56-66 | no run is empty, so `process_group` is never given an empty list; there are no runs exactly when the history is empty; the last run is in the minute of the last entry |
| Aggregate.RunsIsSplit | src/web/data.rs:42-71 | the runs are maximal: neighbouring runs have different minutes, and laid end to end they give back every entry's minute and latency in order, with nothing dropped or duplicated |
| Aggregate.RunsUnique | src/web/data.rs:56-71 | any cut of the history into non-empty runs with changing minutes that gives back the history is the one computed |
| Aggregate.ScanRuns | src/web/data.rs:37-66 | after the loop, the rows are those of the closed runs, none of which is empty; a run stays open exactly when the history is non-empty, its latency list is then non-empty, and the closed runs followed by the open one are the maximal runs of the history |
| Aggregate.GroupByMinute | src/web/data.rs:34-74 | closing the open run after the loop gives one row per maximal run, in order; each row is that run's minute with its min, max and median; there are no rows exactly when the history is empty; neighbouring rows have different minutes |

## Findings

| source | as written | input that shows it | evidently intended | confidence | as-written member | corrected member |
|---|---|---|---|---|---|---|
| src/network/listener.rs:31-47 | `sent_counter - counter` and `queue.len() - age` are unchecked unsigned subtractions. With overflow checks on, as in a debug build, they panic the listener task when the reply's probe has left the queue. | 1001 ticks, so sent_counter is 1001 and the queue holds 1000 entries. Then a 0-byte datagram arrives: its counter decodes to 0, age is 1001, and 1000 - 1001 underflows. A reply more than 1000 ticks late does the same. | A reply whose probe is no longer held is ignored, like the out-of-range index that `get_mut` on line 45 already tolerates. | medium, not executed. A release build wraps instead, and `get_mut` then returns None, which is the intended behaviour. | History.Resolve, ProbeLog.StaleReplyPanics, ProbeLog.EmptyDatagramPanics | History.ResolveChecked, ProbeLog.ResolveRefines, History.WrappingIsChecked |

The step function `ProbeLog.Step`, and so `ProbeLog.Run`, use the corrected `History.ResolveChecked`. It is also what a release build does: `History.WrappingIsChecked` shows that the wrapping subtractions followed by the `get_mut` miss give the same state in every state reached before the counter wraps (`|queue| <= sent_counter`). After a wrap the two differ, and there the release build, not `ResolveChecked`, places the reply on the right probe (`ProbeLog.AfterWrapDiffers`).

## Left out

- **IPv4/UDP frame crafting** (src/network/sender.rs:77-99, 101-108). This covers the header setters and the IPv4 and UDP checksums. They are calls into the pnet library, whose code is not part of this model. Only the UDP length arithmetic of line 100 is modelled.
- **`set_payload` size.** pnet's `set_payload` copies the 192-byte payload into a UDP payload area of `max_packet_size - 28` bytes. Its behaviour when that area is smaller is pnet's and is not modelled.
- **OS I/O.** Interface lookup, the raw transport channel, `send_to` and its error print, and the listener's UDP bind and `recv_from` into a 2048-byte buffer (src/network/sender.rs:25-53, 110-115; src/network/listener.rs:15-25) are left out. A received datagram is an input.
- **Clock reads.** `SystemTime::now` is not modelled. The send timestamp and the stored latency are inputs. The listener's latency (src/network/listener.rs:35-39, 46) is a millisecond clock minus a microsecond timestamp, computed in i128 and cast to u64. The model takes that stored latency as an opaque u64 and does not model the unit mismatch or the cast.
- **`try_into::<usize>()`** (src/network/listener.rs:31-33) is not modelled because it cannot fail on a 64-bit target.
- **Concurrency.** The tokio `Mutex`, the `Arc`s and the `AtomicU64` are left out. The model takes a tick as one atomic step and a reply as another. `History.Resolve` reads the counter and the queue from one state. The code has two windows where that is not so. On the sender side, between `push_back` (src/network/sender.rs:72) and `fetch_add` (line 75), a reply sees the new entry but the old counter. On the listener side, the counter is read at src/network/listener.rs:31 but the queue lock is only taken at line 43. A tick in between makes the listener write probe `c`'s latency into probe `c + 1`'s entry. `ProbeLog.TickBetweenReadAndLock` shows that case; `ProbeLog.RunRefines` and `ProbeLog.ResolveTouchesTagged` hold only for the atomic steps.
- ProbeLog.RunRefines: requires fewer than 2^64 probes in all (the log's length plus the probes sent among the events; replies do not count). After 2^64 ticks the counter wraps (`History.Increment` models that wrap) and no longer equals the number of probes sent, and `History.ResolveChecked` then drops replies that a release build would place correctly (`ProbeLog.AfterWrapDiffers`); the guarded step is not corrected for that case.
- **Calendar key.** The chrono calendar conversion and the string minute key (src/web/data.rs:43-54) are replaced by `Aggregate.MinuteKey`.
- **`process_group` and the list.** The list it is given is a fresh value in the model, so the model does not show `process_group` emptying it (src/web/data.rs:30). `Aggregate.ScanRuns` resets its open-run list at the same point the code clears it.
- Aggregate.ProcessGroup: the median's `latencies[mid - 1] + latencies[mid]` (src/web/data.rs:25) is summed on unbounded integers. A sum of 2^64 or more panics in a debug build and wraps in a release build, and a wrapped, halved sum can be below the minimum, so `min <= median <= max` is promised only for the unbounded sum. In the running program this is common, not an edge case. The stored latency is a millisecond clock minus a microsecond timestamp cast to u64, so every resolved latency is near 2^64 - 1.7e15. Any even-length run with more than half its entries resolved then overflows.
- Aggregate.MinuteKey: returns a key for every timestamp. chrono's conversion of the `SystemTime` (src/web/data.rs:46) panics past its last representable date, near year 262143, that is for `sent as u64` of about 8.21e18 microseconds or more. The key names the same minute as chrono's string only below that point.
- **History element type.** The source gives the shared history two types: the listener takes a `VecDeque<u64>` (src/network/listener.rs:13) and overwrites a whole element (line 46), while the sender (src/network/sender.rs:23) and the aggregator (src/web/data.rs:35) take `crate::model::Result` entries, which the sender fills with `(timestamp, MAX_LATENCY_MILLIS)` pairs (line 72; the `model` module is not part of this model), and src/main.rs:19 passes the one `VecDeque::new()` to both, so the text does not type-check as given. The model uses the sender's `(timestamp, latency)` entry throughout and reads the listener's write as replacing the `latency` field only (`History.Resolve`, `History.SetLatency`).
- **Glue.** Row formatting in `group_by` (src/web/data.rs:8-17), the HTML page (src/web/mod.rs), task spawning and Ctrl+C handling (src/main.rs), and environment configuration loading (src/config/mod.rs) are left out. They hold no logic beyond formatting and wiring. `min_packet_size` is passed to the sender but never used there.

=== FILE: aggregate.dfy ===
/** The per-minute report: the history cut into maximal runs of consecutive
    entries sent in the same minute, each run summarised by the least,
    greatest and median latency. */
module Aggregate {
  import opened Ints
  import opened Results
  import opened History
  import Sorting

  const MICROS_PER_MINUTE: nat := 60_000_000

  /** The minute a probe was sent in, as whole minutes since the epoch. The
      timestamp is first cut to its low 64 bits (`sent as u64`); a UTC
      (year, month, day, hour, minute) tuple names the same minute for every
      time the calendar conversion can represent. */
  function MinuteKey(sent: uint128): (minute: nat)
    ensures minute * MICROS_PER_MINUTE <= sent % TWO_TO_THE_64 < (minute + 1) * MICROS_PER_MINUTE
  {
    (sent % TWO_TO_THE_64) / MICROS_PER_MINUTE
  }

  /** Probes sent at 12:00:59.900 and 12:01:00.100 on the first day of the
      epoch fall in different minutes although 200 ms apart. */
  lemma MinuteBoundaryExample()
    ensures MinuteKey(43_259_900_000) == 720 && MinuteKey(43_260_100_000) == 721
  {
  }

  /** One report row: the minute and its (min, max, median) latency. */
  datatype Row = Row(minute: nat, min: uint64, max: uint64, median: uint64)

  /** A run of consecutive history entries sharing a minute, with their latencies in order. */
  datatype Run = Run(minute: nat, latencies: seq<uint64>)

  /** The middle element of a sorted list, or the integer mean of the two middle
      elements when the count is even. */
  function MedianOfSorted(s: seq<int>): (median: int)
    requires |s| > 0
  {
    if |s| % 2 == 0 then (s[|s| / 2 - 1] + s[|s| / 2]) / 2 else s[|s| / 2]
  }

  lemma MedianBetween(s: seq<int>)
    requires Sorting.Sorted(s) && |s| > 0
    ensures s[0] <= MedianOfSorted(s) <= s[|s| - 1]
  {
    var n := |s|;
    if n % 2 == 0 {
      assert s[0] <= s[n / 2 - 1] <= s[n / 2] <= s[n - 1];
    } else {
      assert s[0] <= s[n / 2] <= s[n - 1];
    }
  }

  /** `process_group`: sort the run's latencies and take the first, the last and
      the median. The run must be non-empty (the code unwraps `first` and `last`).
      The two middle values are summed without the u64 bound. */
  function ProcessGroup(minute: nat, latencies: seq<uint64>): (row: Row)
    requires |latencies| > 0
    ensures row.minute == minute
    ensures row.min in latencies && row.max in latencies
    ensures forall x :: x in latencies ==> row.min <= x <= row.max
    ensures row.min <= row.median <= row.max
    ensures |latencies| % 2 == 1 ==> row.median in latencies
  {
    var sorted := Sorting.Sort(latencies);
    var n := |sorted|;
    assert n == |multiset(sorted)| == |multiset(latencies)| == |latencies|;
    Sorting.SameMembers(sorted, latencies);
    Sorting.SortedExtremes(sorted);
    assert sorted[0] in sorted && sorted[n - 1] in sorted && sorted[n / 2] in sorted;
    var median := MedianOfSorted(sorted);
    MedianBetween(sorted);
    Row(minute, sorted[0], sorted[n - 1], median)
  }

  /** The median is that of any sorted arrangement of the run: it depends on the
      multiset of latencies only, not on their order or on the sort used. */
  lemma MedianOfAnySorting(minute: nat, latencies: seq<uint64>, sorted: seq<int>)
    requires |latencies| > 0
    requires Sorting.Sorted(sorted) && multiset(sorted) == multiset(latencies)
    ensures |sorted| == |latencies|
    ensures ProcessGroup(minute, latencies).median == MedianOfSorted(sorted)
    ensures ProcessGroup(minute, latencies).min == sorted[0]
    ensures ProcessGroup(minute, latencies).max == sorted[|sorted| - 1]
  {
    assert |sorted| == |multiset(sorted)| == |multiset(latencies)| == |latencies|;
    Sorting.SortedUnique(Sorting.Sort(latencies), sorted);
  }

  /** An odd run's median is its middle value: [30, 10, 20] gives 20. */
  lemma OddMedianExample()
    ensures ProcessGroup(0, [30, 10, 20]).median == 20
  {
    var sorted: seq<int> := [10, 20, 30];
    assert Sorting.Sorted(sorted);
    assert multiset(sorted) == multiset([30, 10, 20]);
    assert MedianOfSorted(sorted) == sorted[1];
    MedianOfAnySorting(0, [30, 10, 20], sorted);
  }

  /** An even run's median is the integer mean of its two middle values:
      [40, 10, 30, 20] gives 25. */
  lemma EvenMedianExample()
    ensures ProcessGroup(0, [40, 10, 30, 20]).median == 25
  {
    var sorted: seq<int> := [10, 20, 30, 40];
    assert Sorting.Sorted(sorted);
    assert multiset(sorted) == multiset([40, 10, 30, 20]);
    assert MedianOfSorted(sorted) == (sorted[1] + sorted[2]) / 2 == 25;
    MedianOfAnySorting(0, [40, 10, 30, 20], sorted);
  }

  /** Each history entry as its (minute, latency) pair. */
  function Keyed(history: seq<Entry>): (k: seq<(nat, uint64)>)
    ensures |k| == |history|
    ensures forall i :: 0 <= i < |history| ==> k[i] == (MinuteKey(history[i].sent), history[i].latency)
  {
    seq(|history|, i requires 0 <= i < |history| => (MinuteKey(history[i].sent), history[i].latency))
  }

  /** A run as the (minute, latency) pairs it stands for. */
  function Expand(r: Run): (k: seq<(nat, uint64)>)
    ensures |k| == |r.latencies|
    ensures forall i :: 0 <= i < |r.latencies| ==> k[i] == (r.minute, r.latencies[i])
  {
    seq(|r.latencies|, i requires 0 <= i < |r.latencies| => (r.minute, r.latencies[i]))
  }

  /** The runs laid end to end. */
  function Flatten(runs: seq<Run>): (k: seq<(nat, uint64)>)
    decreases |runs|
  {
    if |runs| == 0 then [] else Flatten(runs[..|runs| - 1]) + Expand(runs[|runs| - 1])
  }

  predicate NonEmptyRuns(runs: seq<Run>) {
    forall i :: 0 <= i < |runs| ==> |runs[i].latencies| > 0
  }

  predicate KeysChange(runs: seq<Run>) {
    forall i :: 0 < i < |runs| ==> runs[i - 1].minute != runs[i].minute
  }

  /** `runs` cuts `history` into maximal runs of equal minute: no run is empty,
      neighbouring runs differ in minute, and laid end to end the runs give back
      every entry's minute and latency, in order. */
  predicate IsRunSplit(runs: seq<Run>, history: seq<Entry>) {
    NonEmptyRuns(runs) && KeysChange(runs) && Flatten(runs) == Keyed(history)
  }

  lemma FlattenSnoc(runs: seq<Run>, r: Run)
    ensures Flatten(runs + [r]) == Flatten(runs) + Expand(r)
  {
    assert (runs + [r])[..|runs|] == runs;
  }

  lemma SnocInjective<T>(a: seq<T>, x: T, b: seq<T>, y: T)
    requires a + [x] == b + [y]
    ensures a == b && x == y
  {
    assert a == (a + [x])[..|a|] && b == (b + [y])[..|b|];
    assert x == (a + [x])[|a|] && y == (b + [y])[|b|];
  }

  lemma KeyedSnoc(front: seq<Entry>, e: Entry)
    ensures Keyed(front + [e]) == Keyed(front) + [(MinuteKey(e.sent), e.latency)]
  {
  }

  /** An entry in the open run's minute extends that run. */
  lemma JoinKeepsSplit(prev: seq<Run>, front: seq<Entry>, e: Entry)
    requires IsRunSplit(prev, front)
    requires |prev| > 0 && prev[|prev| - 1].minute == MinuteKey(e.sent)
    ensures IsRunSplit(prev[..|prev| - 1] + [Run(MinuteKey(e.sent), prev[|prev| - 1].latencies + [e.latency])], front + [e])
  {
    var key := MinuteKey(e.sent);
    var open := prev[|prev| - 1];
    var merged := Run(key, open.latencies + [e.latency]);
    assert prev == prev[..|prev| - 1] + [open];
    assert Expand(merged) == Expand(open) + [(key, e.latency)];
    FlattenSnoc(prev[..|prev| - 1], merged);
    FlattenSnoc(prev[..|prev| - 1], open);
    KeyedSnoc(front, e);
  }

  /** An entry in a new minute opens a run of its own. */
  lemma OpenKeepsSplit(prev: seq<Run>, front: seq<Entry>, e: Entry)
    requires IsRunSplit(prev, front)
    requires |prev| == 0 || prev[|prev| - 1].minute != MinuteKey(e.sent)
    ensures IsRunSplit(prev + [Run(MinuteKey(e.sent), [e.latency])], front + [e])
  {
    FlattenSnoc(prev, Run(MinuteKey(e.sent), [e.latency]));
    KeyedSnoc(front, e);
  }

  /** The split of the history into runs, one entry at a time, as the loop in
      `group_by_minute` does: an entry joins the open run when its minute
      matches, and opens a new run otherwise. */
  function Runs(history: seq<Entry>): (runs: seq<Run>)
    ensures NonEmptyRuns(runs)
    ensures |runs| == 0 <==> |history| == 0
    ensures |history| > 0 ==> runs[|runs| - 1].minute == MinuteKey(history[|history| - 1].sent)
    decreases |history|
  {
    if |history| == 0 then []
    else
      var e := history[|history| - 1];
      var key := MinuteKey(e.sent);
      var prev := Runs(history[..|history| - 1]);
      if |prev| > 0 && prev[|prev| - 1].minute == key then
        prev[..|prev| - 1] + [Run(key, prev[|prev| - 1].latencies + [e.latency])]
      else
        prev + [Run(key, [e.latency])]
  }

  /** `Runs` cuts the history into maximal runs: no run is empty, neighbouring
      runs differ in minute, and laid end to end the runs give back every
      entry's minute and latency, in order. */
  lemma {:induction false} RunsIsSplit(history: seq<Entry>)
    ensures IsRunSplit(Runs(history), history)
    decreases |history|
  {
    if |history| > 0 {
      var front := history[..|history| - 1];
      var e := history[|history| - 1];
      RunsIsSplit(front);
      StepKeepsSplit(front, e);
      assert history == front + [e];
    }
  }

  /** One more entry keeps `Runs` a split. */
  lemma StepKeepsSplit(front: seq<Entry>, e: Entry)
    requires IsRunSplit(Runs(front), front)
    ensures IsRunSplit(Runs(front + [e]), front + [e])
  {
    var prev := Runs(front);
    RunsSnoc(front, e);
    if |prev| > 0 && prev[|prev| - 1].minute == MinuteKey(e.sent) {
      JoinKeepsSplit(prev, front, e);
    } else {
      OpenKeepsSplit(prev, front, e);
    }
  }

  /** Unfolding `Runs` on a history that ends in `e`. */
  lemma RunsSnoc(front: seq<Entry>, e: Entry)
    ensures var prev := Runs(front);
            var key := MinuteKey(e.sent);
            Runs(front + [e]) ==
              if |prev| > 0 && prev[|prev| - 1].minute == key
              then prev[..|prev| - 1] + [Run(key, prev[|prev| - 1].latencies + [e.latency])]
              else prev + [Run(key, [e.latency])]
  {
    assert (front + [e])[..|front|] == front;
  }

  /** In a split of a history ending in `e`, the last run ends with `e`, and
      taking `e` off it leaves a split of the rest. */
  lemma LastOfSplit(runs: seq<Run>, front: seq<Entry>, e: Entry)
    requires IsRunSplit(runs, front + [e])
    ensures |runs| > 0
    ensures var r := runs[|runs| - 1];
            && r.minute == MinuteKey(e.sent)
            && r.latencies[|r.latencies| - 1] == e.latency
            && Flatten(runs[..|runs| - 1]) + Expand(Run(r.minute, r.latencies[..|r.latencies| - 1])) == Keyed(front)
  {
    KeyedSnoc(front, e);
    assert |runs| > 0;
    var n := |runs|;
    var r := runs[n - 1];
    var m := |r.latencies|;
    var shorter := Run(r.minute, r.latencies[..m - 1]);
    assert runs == runs[..n - 1] + [r];
    FlattenSnoc(runs[..n - 1], r);
    assert Expand(r) == Expand(shorter) + [(r.minute, r.latencies[m - 1])];
    SnocInjective(Flatten(runs[..n - 1]) + Expand(shorter), (r.minute, r.latencies[m - 1]),
                  Keyed(front), (MinuteKey(e.sent), e.latency));
  }

  /** A split of the empty history has no runs. */
  lemma EmptySplit(runs: seq<Run>)
    requires IsRunSplit(runs, [])
    ensures runs == []
  {
  }

  /** `runs` with its last entry taken off the last run, and that run dropped if
      it becomes empty. */
  function DropLastEntry(runs: seq<Run>): (shorter: seq<Run>)
    requires |runs| > 0 && |runs[|runs| - 1].latencies| > 0
  {
    var r := runs[|runs| - 1];
    var m := |r.latencies|;
    if m == 1 then runs[..|runs| - 1] else runs[..|runs| - 1] + [Run(r.minute, r.latencies[..m - 1])]
  }

  /** Taking the last entry off a split of `front + [e]` leaves a split of `front`. */
  lemma DropLastSplit(runs: seq<Run>, front: seq<Entry>, e: Entry)
    requires IsRunSplit(runs, front + [e])
    ensures |runs| > 0 && IsRunSplit(DropLastEntry(runs), front)
  {
    LastOfSplit(runs, front, e);
    var n := |runs|;
    var r := runs[n - 1];
    var m := |r.latencies|;
    var shorter := Run(r.minute, r.latencies[..m - 1]);
    if m == 1 {
      assert Expand(shorter) == [];
    } else {
      FlattenSnoc(runs[..n - 1], shorter);
      assert DropLastEntry(runs)[..n - 1] == runs[..n - 1];
    }
  }

  /** A split of `front + [e]` whose shortened form is `Runs(front)` is `Runs(front + [e])`. */
  lemma RegrowLast(runs: seq<Run>, front: seq<Entry>, e: Entry)
    requires IsRunSplit(runs, front + [e])
    requires |runs| > 0 && |runs[|runs| - 1].latencies| > 0
    requires DropLastEntry(runs) == Runs(front)
    ensures runs == Runs(front + [e])
  {
    LastOfSplit(runs, front, e);
    RunsSnoc(front, e);
    var n := |runs|;
    var r := runs[n - 1];
    if |r.latencies| == 1 {
      RegrowSingle(runs, e);
    } else {
      RegrowLonger(runs, e);
    }
  }

  lemma RegrowSingle(runs: seq<Run>, e: Entry)
    requires |runs| > 0 && KeysChange(runs)
    requires runs[|runs| - 1] == Run(MinuteKey(e.sent), [e.latency])
    ensures var prev := runs[..|runs| - 1];
            && (|prev| == 0 || prev[|prev| - 1].minute != MinuteKey(e.sent))
            && runs == prev + [Run(MinuteKey(e.sent), [e.latency])]
  {
  }

  lemma RegrowLonger(runs: seq<Run>, e: Entry)
    requires |runs| > 0
    requires var r := runs[|runs| - 1];
             |r.latencies| > 1 && r.minute == MinuteKey(e.sent) && r.latencies[|r.latencies| - 1] == e.latency
    ensures var prev := DropLastEntry(runs);
            && |prev| > 0 && prev[|prev| - 1].minute == MinuteKey(e.sent)
            && runs == prev[..|prev| - 1] + [Run(MinuteKey(e.sent), prev[|prev| - 1].latencies + [e.latency])]
  {
    var n := |runs|;
    var r := runs[n - 1];
    var m := |r.latencies|;
    assert r.latencies == r.latencies[..m - 1] + [e.latency];
    assert DropLastEntry(runs)[..n - 1] == runs[..n - 1];
  }

  /** The split into maximal runs is unique: any split meeting `IsRunSplit` is
      the one `Runs` computes. */
  lemma {:induction false} RunsUnique(runs: seq<Run>, history: seq<Entry>)
    requires IsRunSplit(runs, history)
    ensures runs == Runs(history)
    decreases |history|
  {
    if |history| == 0 {
      EmptySplit(runs);
    } else {
      var front := history[..|history| - 1];
      var e := history[|history| - 1];
      assert history == front + [e];
      DropLastSplit(runs, front, e);
      RunsUnique(DropLastEntry(runs), front);
      RegrowLast(runs, front, e);
    }
  }

  /** One row per run, in order. */
  function Summarize(runs: seq<Run>): (rows: seq<Row>)
    requires NonEmptyRuns(runs)
    ensures |rows| == |runs|
    ensures forall i :: 0 <= i < |runs| ==> rows[i] == ProcessGroup(runs[i].minute, runs[i].latencies)
  {
    seq(|runs|, i requires 0 <= i < |runs| => ProcessGroup(runs[i].minute, runs[i].latencies))
  }

  /** Entry `i` in the open run's minute extends the open run. */
  lemma RunsJoin(history: seq<Entry>, i: nat, closed: seq<Run>, latencies: seq<uint64>)
    requires i < |history|
    requires Runs(history[..i]) == closed + [Run(MinuteKey(history[i].sent), latencies)]
    ensures Runs(history[..i + 1]) == closed + [Run(MinuteKey(history[i].sent), latencies + [history[i].latency])]
  {
    assert history[..i + 1] == history[..i] + [history[i]];
    RunsSnoc(history[..i], history[i]);
    var prev := Runs(history[..i]);
    assert prev[..|prev| - 1] == closed;
  }

  /** Entry `i` in another minute closes the open run and opens its own. */
  lemma RunsOpen(history: seq<Entry>, i: nat, closed: seq<Run>, minute: nat, latencies: seq<uint64>)
    requires i < |history|
    requires Runs(history[..i]) == closed + [Run(minute, latencies)]
    requires MinuteKey(history[i].sent) != minute
    ensures Runs(history[..i + 1]) == (closed + [Run(minute, latencies)]) + [Run(MinuteKey(history[i].sent), [history[i].latency])]
  {
    assert history[..i + 1] == history[..i] + [history[i]];
    RunsSnoc(history[..i], history[i]);
  }

  /** The first entry opens the first run. */
  lemma RunsFirst(history: seq<Entry>)
    requires |history| > 0
    ensures Runs(history[..1]) == [Run(MinuteKey(history[0].sent), [history[0].latency])]
  {
    assert history[..1] == [] + [history[0]];
    RunsSnoc([], history[0]);
  }

  /** The rows follow the runs: none for an empty history, and neighbouring rows
      in different minutes. */
  lemma RowsOfRuns(history: seq<Entry>)
    ensures |Summarize(Runs(history))| == 0 <==> |history| == 0
    ensures forall i :: 0 < i < |Summarize(Runs(history))| ==>
              Summarize(Runs(history))[i - 1].minute != Summarize(Runs(history))[i].minute
  {
    RunsIsSplit(history);
  }

  lemma SummarizeSnoc(runs: seq<Run>, r: Run)
    requires NonEmptyRuns(runs) && |r.latencies| > 0
    ensures NonEmptyRuns(runs + [r])
    ensures Summarize(runs + [r]) == Summarize(runs) + [ProcessGroup(r.minute, r.latencies)]
  {
  }

  /** The loop of `group_by_minute` over the history: the rows of the runs it
      has closed, and the minute and latencies of the run still open (none for
      an empty history). */
  method ScanRuns(history: seq<Entry>)
    returns (rows: seq<Row>, currentMinute: Option<nat>, currentLatencies: seq<uint64>, ghost closed: seq<Run>)
    ensures NonEmptyRuns(closed) && rows == Summarize(closed)
    ensures currentMinute.None? <==> |history| == 0
    ensures currentMinute.None? ==> closed == []
    ensures currentMinute.Some? ==>
              |currentLatencies| > 0 && Runs(history) == closed + [Run(currentMinute.value, currentLatencies)]
  {
    rows := [];
    currentMinute := None;
    currentLatencies := [];
    closed := [];
    for i := 0 to |history|
      invariant NonEmptyRuns(closed)
      invariant rows == Summarize(closed)
      invariant currentMinute.None? <==> i == 0
      invariant currentMinute.None? ==> closed == [] && currentLatencies == []
      invariant currentMinute.Some? ==>
                  |currentLatencies| > 0 && Runs(history[..i]) == closed + [Run(currentMinute.value, currentLatencies)]
    {
      var minute := MinuteKey(history[i].sent);
      var latency := history[i].latency;
      if currentMinute.Some? {
        if currentMinute.value != minute {
          RunsOpen(history, i, closed, currentMinute.value, currentLatencies);
          SummarizeSnoc(closed, Run(currentMinute.value, currentLatencies));
          rows := rows + [ProcessGroup(currentMinute.value, currentLatencies)];
          closed := closed + [Run(currentMinute.value, currentLatencies)];
          currentLatencies := [];  // `process_group` clears the list it summarised
          currentMinute := Some(minute);
          assert currentLatencies + [latency] == [latency];
        } else {
          RunsJoin(history, i, closed, currentLatencies);
        }
      } else {
        RunsFirst(history);
        currentMinute := Some(minute);
        assert currentLatencies + [latency] == [latency];
        assert closed + [Run(minute, [latency])] == [Run(minute, [latency])];
      }
      currentLatencies := currentLatencies + [latency];
    }
    assert history[..|history|] == history;
  }

  /** `group_by_minute`: the loop, then the run still open at the end closed
      into the last row. `process_group` is only ever called on a non-empty run. */
  method GroupByMinute(history: seq<Entry>) returns (rows: seq<Row>)
    ensures rows == Summarize(Runs(history))
    ensures |rows| == 0 <==> |history| == 0
    ensures forall i :: 0 < i < |rows| ==> rows[i - 1].minute != rows[i].minute
  {
    var currentMinute, currentLatencies;
    ghost var closed;
    rows, currentMinute, currentLatencies, closed := ScanRuns(history);
    if currentMinute.Some? {
      SummarizeSnoc(closed, Run(currentMinute.value, currentLatencies));
      rows := rows + [ProcessGroup(currentMinute.value, currentLatencies)];
    }
    RowsOfRuns(history);
  }
}

=== FILE: bigendian.dfy ===
/** Big-endian encoding of unsigned integers into a fixed number of bytes, as
    `WriteBytesExt::write_u64::<BigEndian>` and friends do, and the matching reads. */
module BigEndian {
  import opened Ints

  /** 256 to the power `n`: the number of values `n` bytes can hold. */
  function Pow256(n: nat): (r: nat)
    ensures r > 0
  {
    if n == 0 then 1 else 256 * Pow256(n - 1)
  }

  lemma Pow256Widths()
    ensures Pow256(2) == TWO_TO_THE_16
    ensures Pow256(8) == TWO_TO_THE_64
    ensures Pow256(16) == TWO_TO_THE_128
  {
    assert Pow256(4) == 0x1_0000_0000 by {
      assert Pow256(2) == 0x1_0000;
    }
    assert Pow256(8) == 0x1_0000_0000_0000_0000 by {
      assert Pow256(6) == 0x1_0000_0000_0000;
    }
    assert Pow256(12) == 0x1_0000_0000_0000_0000_0000_0000;
  }

  /** The `width` bytes of `n`, most significant first. */
  function Encode(n: nat, width: nat): (bs: seq<uint8>)
    requires n < Pow256(width)
    ensures |bs| == width
  {
    if width == 0 then []
    else
      assert n / 256 < Pow256(width - 1);
      Encode(n / 256, width - 1) + [n % 256]
  }

  /** The number whose big-endian bytes are `bs`. */
  function Decode(bs: seq<uint8>): (n: nat)
    ensures n < Pow256(|bs|)
  {
    if |bs| == 0 then 0
    else
      var high := Decode(bs[..|bs| - 1]);
      assert high * 256 <= (Pow256(|bs| - 1) - 1) * 256;
      high * 256 + bs[|bs| - 1]
  }

  /** Reading back what was written gives the number that was written. */
  lemma {:induction false} DecodeEncode(n: nat, width: nat)
    requires n < Pow256(width)
    ensures Decode(Encode(n, width)) == n
  {
    if width > 0 {
      var bs := Encode(n, width);
      assert bs[..width - 1] == Encode(n / 256, width - 1);
      DecodeEncode(n / 256, width - 1);
    }
  }

  /** Every byte string is the encoding of the number it decodes to, so the
      encoding of a given width is a bijection. */
  lemma {:induction false} EncodeDecode(bs: seq<uint8>)
    ensures Encode(Decode(bs), |bs|) == bs
  {
    if |bs| > 0 {
      var prefix := bs[..|bs| - 1];
      var n := Decode(bs);
      assert n / 256 == Decode(prefix) && n % 256 == bs[|bs| - 1];
      EncodeDecode(prefix);
    }
  }

  /** `write_u64::<BigEndian>`: the eight bytes of a u64, which read back as it. */
  function EncodeUint64(n: uint64): (bs: seq<uint8>)
    ensures |bs| == 8 && Decode(bs) == n
  {
    Pow256Widths();
    DecodeEncode(n, 8);
    Encode(n, 8)
  }

  /** `write_u128::<BigEndian>`: the sixteen bytes of a u128, which read back as it. */
  function EncodeUint128(n: uint128): (bs: seq<uint8>)
    ensures |bs| == 16 && Decode(bs) == n
  {
    Pow256Widths();
    DecodeEncode(n, 16);
    Encode(n, 16)
  }

  /** Two numbers of the same width have the same encoding only if they are equal. */
  lemma EncodeInjective(a: nat, b: nat, width: nat)
    requires a < Pow256(width) && b < Pow256(width)
    requires Encode(a, width) == Encode(b, width)
    ensures a == b
  {
    DecodeEncode(a, width);
    DecodeEncode(b, width);
  }
}

=== FILE: history.dfy ===
/** The probe history shared by the sender and the listener: a queue of
    (send timestamp, latency) entries bounded at 1000, and the sent counter.
    The sender's tick and the listener's latency write are the two operations. */
module History {
  import opened Ints
  import opened Results

  /** Most entries the queue keeps; the oldest is dropped beyond it. */
  const MAX_QUEUE_SIZE: nat := 1000
  /** Latency a probe holds until a reply overwrites it. */
  const MAX_LATENCY_MILLIS: uint64 := 1000

  /** One sent probe: its microsecond send time and its latency. */
  datatype Entry = Entry(sent: uint128, latency: uint64)

  /** The shared state: the history queue, oldest first, and the number of
      counters handed out so far (the next counter to use). */
  datatype Prober = Prober(queue: seq<Entry>, sentCounter: uint64)

  /** The state before the first tick. */
  const Initial: Prober := Prober([], 0)

  /** `AtomicU64::fetch_add(1)` leaves this value behind; it wraps at 2^64. */
  function Increment(counter: uint64): (next: uint64)
    ensures counter + 1 < TWO_TO_THE_64 ==> next == counter + 1
    ensures counter + 1 == TWO_TO_THE_64 ==> next == 0
  {
    (counter + 1) % TWO_TO_THE_64
  }

  /** One sender tick taken as one atomic step: drop the front entry if the
      queue is full, append the new probe with the placeholder latency, and
      take the next counter. Returns the new state and the counter the
      probe's payload carries. */
  function Tick(p: Prober, timestamp: uint128): (r: (Prober, uint64))
    ensures r.1 == p.sentCounter
    ensures r.0.sentCounter == Increment(p.sentCounter)
    ensures |p.queue| <= MAX_QUEUE_SIZE ==> |r.0.queue| == Min(|p.queue| + 1, MAX_QUEUE_SIZE)
    ensures |r.0.queue| == (if |p.queue| >= MAX_QUEUE_SIZE then |p.queue| else |p.queue| + 1)
    ensures r.0.queue[|r.0.queue| - 1] == Entry(timestamp, MAX_LATENCY_MILLIS)
    ensures |p.queue| < MAX_QUEUE_SIZE ==> r.0.queue[..|p.queue|] == p.queue
    ensures |p.queue| >= MAX_QUEUE_SIZE ==> r.0.queue[..|p.queue| - 1] == p.queue[1..]
  {
    var kept := if |p.queue| >= MAX_QUEUE_SIZE then p.queue[1..] else p.queue;
    var queue := kept + [Entry(timestamp, MAX_LATENCY_MILLIS)];
    assert queue[..|kept|] == kept;
    (Prober(queue, Increment(p.sentCounter)), p.sentCounter)
  }

  /** `queue` with the latency of entry `i` set to `latency`, all else kept. */
  function SetLatency(queue: seq<Entry>, i: nat, latency: uint64): (r: seq<Entry>)
    requires i < |queue|
    ensures |r| == |queue| && r[i] == Entry(queue[i].sent, latency)
    ensures forall j :: 0 <= j < |queue| && j != i ==> r[j] == queue[j]
  {
    queue[i := queue[i].(latency := latency)]
  }

  /** The listener's handling of a reply carrying `counter`, as written:
      `age = sent_counter - counter` in u64, `index = len - age` in usize, and
      the latency stored at `index` when that is a position of the queue.
      Either subtraction panics when it would go below zero. */
  function Resolve(p: Prober, counter: uint64, latency: uint64): (r: Outcome<Prober>)
    ensures r.Panic? <==> counter > p.sentCounter || p.sentCounter - counter > |p.queue|
    ensures r.Panic? ==> r.fault == (if counter > p.sentCounter then CounterUnderflow else IndexUnderflow)
    ensures r.Ok? ==> r.value.sentCounter == p.sentCounter && |r.value.queue| == |p.queue|
    ensures r.Ok? && counter == p.sentCounter ==> r.value == p
    ensures r.Ok? && counter < p.sentCounter ==>
              var i := |p.queue| - (p.sentCounter - counter);
              && r.value.queue[i] == Entry(p.queue[i].sent, latency)
              && forall j :: 0 <= j < |p.queue| && j != i ==> r.value.queue[j] == p.queue[j]
  {
    if counter > p.sentCounter then Panic(CounterUnderflow)
    else
      var age := p.sentCounter - counter;
      if age > |p.queue| then Panic(IndexUnderflow)
      else
        var index := |p.queue| - age;
        if index < |p.queue| then Ok(p.(queue := SetLatency(p.queue, index, latency)))
        else Ok(p)
  }

  /** The listener step with the two subtractions guarded: a reply whose counter
      is not yet sent, or whose probe has left the queue, changes nothing. */
  function ResolveChecked(p: Prober, counter: uint64, latency: uint64): (r: Prober)
    ensures r.sentCounter == p.sentCounter && |r.queue| == |p.queue|
    ensures Resolve(p, counter, latency).Ok? ==> r == Resolve(p, counter, latency).value
    ensures Resolve(p, counter, latency).Panic? ==> r == p
  {
    if counter < p.sentCounter && p.sentCounter - counter <= |p.queue| then
      p.(queue := SetLatency(p.queue, |p.queue| - (p.sentCounter - counter), latency))
    else p
  }

  /** The listener step as a release build runs it: both subtractions wrap
      (u64, and usize taken as 64 bits wide), and `get_mut` finds no entry at
      an index past the end of the queue. */
  function ResolveWrapping(p: Prober, counter: uint64, latency: uint64): (r: Prober)
    ensures r.sentCounter == p.sentCounter && |r.queue| == |p.queue|
    ensures r != p ==> exists i :: 0 <= i < |p.queue| && r.queue == SetLatency(p.queue, i, latency)
  {
    var age := (p.sentCounter - counter) % TWO_TO_THE_64;
    var index := (|p.queue| - age) % TWO_TO_THE_64;
    if index < |p.queue| then p.(queue := SetLatency(p.queue, index, latency)) else p
  }

  /** In every state where the queue is no longer than the number of probes
      sent, the wrapping release build does exactly what the guarded step does:
      a reply the queue cannot place lands past its end and is dropped. */
  lemma WrappingIsChecked(p: Prober, counter: uint64, latency: uint64)
    requires |p.queue| <= p.sentCounter
    ensures ResolveWrapping(p, counter, latency) == ResolveChecked(p, counter, latency)
  {
    var len := |p.queue|;
    var age := (p.sentCounter - counter) % TWO_TO_THE_64;
    var index := (len - age) % TWO_TO_THE_64;
    if counter > p.sentCounter {
      assert age == p.sentCounter - counter + TWO_TO_THE_64 > len;
      assert index == len - age + TWO_TO_THE_64 >= len;
    } else if p.sentCounter - counter > len {
      assert age == p.sentCounter - counter;
      assert index == len - age + TWO_TO_THE_64 >= len;
    } else {
      assert age == p.sentCounter - counter;
      assert index == len - age;
    }
  }

  /** A second reply for the same counter overwrites the first: the last write wins. */
  lemma LastWriteWins(p: Prober, counter: uint64, first: uint64, second: uint64)
    requires Resolve(p, counter, first).Ok?
    ensures Resolve(Resolve(p, counter, first).value, counter, second) == Resolve(p, counter, second)
  {
    var q := Resolve(p, counter, first).value;
    if counter < p.sentCounter {
      var i := |p.queue| - (p.sentCounter - counter);
      assert SetLatency(q.queue, i, second) == SetLatency(p.queue, i, second);
    }
  }

  /** The sender's loop over successive ticks: the final state and the counter
      each tick's payload carried, in order. */
  function TickAll(p: Prober, timestamps: seq<uint128>): (r: (Prober, seq<uint64>))
    ensures |r.1| == |timestamps|
    ensures |timestamps| > 0 ==> r.1[0] == p.sentCounter
    ensures |timestamps| > 0 ==>
              |r.0.queue| > 0 && r.0.queue[|r.0.queue| - 1] == Entry(timestamps[|timestamps| - 1], MAX_LATENCY_MILLIS)
    ensures |timestamps| == 0 ==> r.0 == p
    decreases |timestamps|
  {
    if |timestamps| == 0 then (p, [])
    else
      var (next, counter) := Tick(p, timestamps[0]);
      var (last, counters) := TickAll(next, timestamps[1..]);
      (last, [counter] + counters)
  }

  /** Until the counter wraps, tick `i` hands out the `i`-th counter after the
      starting one and the sent counter advances by one per tick. */
  lemma {:induction false} CountersConsecutive(p: Prober, timestamps: seq<uint128>)
    requires p.sentCounter + |timestamps| < TWO_TO_THE_64
    ensures TickAll(p, timestamps).0.sentCounter == p.sentCounter + |timestamps|
    ensures forall i :: 0 <= i < |timestamps| ==> TickAll(p, timestamps).1[i] == p.sentCounter + i
    decreases |timestamps|
  {
    if |timestamps| > 0 {
      var next := Tick(p, timestamps[0]).0;
      CountersConsecutive(next, timestamps[1..]);
    }
  }

  /** The counters the payloads carry strictly increase, so no two probes share one. */
  lemma CountersIncrease(p: Prober, timestamps: seq<uint128>, i: nat, j: nat)
    requires p.sentCounter + |timestamps| < TWO_TO_THE_64
    requires i < j < |timestamps|
    ensures TickAll(p, timestamps).1[i] < TickAll(p, timestamps).1[j]
  {
    CountersConsecutive(p, timestamps);
  }

  /** However many ticks are taken, a queue within the bound stays within it. */
  lemma {:induction false} TickAllBounded(p: Prober, timestamps: seq<uint128>)
    requires |p.queue| <= MAX_QUEUE_SIZE
    ensures |TickAll(p, timestamps).0.queue| <= MAX_QUEUE_SIZE
    decreases |timestamps|
  {
    if |timestamps| > 0 {
      TickAllBounded(Tick(p, timestamps[0]).0, timestamps[1..]);
    }
  }
}

=== FILE: ints.dfy ===
/** Fixed-width unsigned integers of the prober, and the outcome types used where
    the Rust code returns an `Option` or panics. */
module Ints {

  const TWO_TO_THE_16: nat := 0x1_0000
  const TWO_TO_THE_64: nat := 0x1_0000_0000_0000_0000
  const TWO_TO_THE_128: nat := 0x1_0000_0000_0000_0000_0000_0000_0000_0000

  type uint8 = x: int | 0 <= x < 0x100
  type uint16 = x: int | 0 <= x < 0x1_0000
  type uint64 = x: int | 0 <= x < 0x1_0000_0000_0000_0000
  type uint128 = x: int | 0 <= x < 0x1_0000_0000_0000_0000_0000_0000_0000_0000

  /** The lesser of two integers. */
  function Min(a: int, b: int): (m: int)
    ensures m <= a && m <= b
    ensures m == a || m == b
  {
    if a <= b then a else b
  }
}

module Results {

  /** Rust's `Option`, with `unwrap_or_default` spelled out by the caller. */
  datatype Option<T> = None | Some(value: T) {
    function GetOr(default: T): (v: T)
      ensures this.Some? ==> v == this.value
      ensures this.None? ==> v == default
    {
      match this
      case Some(v) => v
      case None => default
    }
  }

  /** The places where the modelled Rust code panics on unsigned underflow
      (a debug build checks every subtraction). */
  datatype Fault =
    | CounterUnderflow   // `sent_counter - counter` in u64
    | IndexUnderflow     // `queue.len() - age` in usize
    | LengthUnderflow    // `max_packet_size - 20` in u16 (shadowed by earlier pnet unwraps)

  /** The value computed, or the panic that ends the task instead. */
  datatype Outcome<T> = Ok(value: T) | Panic(fault: Fault)
}

=== FILE: payload.dfy ===
/** The probe payload: what `get_payload` in the sender writes and what the
    listener reads back with a cursor, plus the UDP length the sender sets. */
module Payload {
  import opened Ints
  import opened Results
  import BigEndian

  /** Size of the buffer `get_payload` returns. */
  const PAYLOAD_SIZE: nat := 192
  /** Bytes taken by the big-endian u64 counter. */
  const COUNTER_WIDTH: nat := 8
  /** Bytes taken by the big-endian u128 microsecond timestamp. */
  const TIMESTAMP_WIDTH: nat := 16
  /** Bytes of the payload that carry data; the rest is padding. */
  const HEADER_SIZE: nat := COUNTER_WIDTH + TIMESTAMP_WIDTH
  /** `MutableIpv4Packet::minimum_packet_size()`: an IPv4 header without options. */
  const IPV4_HEADER_SIZE: nat := 20

  /** The fields a datagram carries. */
  datatype Fields = Fields(counter: uint64, timestamp: uint128)

  function Zeros(n: nat): (z: seq<uint8>)
    ensures |z| == n
    ensures forall i :: 0 <= i < n ==> z[i] == 0
  {
    seq(n, _ => 0)
  }

  /** A cursor at `pos` writing `data` over the bytes of a buffer long enough to hold it. */
  function WriteAt(buf: seq<uint8>, pos: nat, data: seq<uint8>): (r: seq<uint8>)
    requires pos + |data| <= |buf|
    ensures |r| == |buf|
    ensures r[pos..pos + |data|] == data
    ensures forall i :: 0 <= i < |buf| && !(pos <= i < pos + |data|) ==> r[i] == buf[i]
  {
    buf[..pos] + data + buf[pos + |data|..]
  }

  /** `get_payload`: a zeroed 192-byte buffer into which the counter and then the
      timestamp are written big-endian from offset 0. */
  function GetPayload(counter: uint64, timestamp: uint128): (p: seq<uint8>)
    ensures |p| == PAYLOAD_SIZE
    ensures p[..COUNTER_WIDTH] == BigEndian.EncodeUint64(counter)
    ensures p[COUNTER_WIDTH..HEADER_SIZE] == BigEndian.EncodeUint128(timestamp)
    ensures forall i :: HEADER_SIZE <= i < |p| ==> p[i] == 0
  {
    var buf := Zeros(PAYLOAD_SIZE);
    var buf := WriteAt(buf, 0, BigEndian.EncodeUint64(counter));
    WriteAt(buf, COUNTER_WIDTH, BigEndian.EncodeUint128(timestamp))
  }

  /** `read_exact` of `width` bytes from a cursor over `data` at `pos`: the
      big-endian value read and the new position, or `None` when fewer than
      `width` bytes remain. Where a failed read leaves the cursor is unspecified
      for `read_exact`; the model puts it at the end of the data, and nothing
      depends on it, since a failed counter read means the timestamp read fails too. */
  function ReadBigEndian(data: seq<uint8>, pos: nat, width: nat): (r: (Option<nat>, nat))
    ensures r.0.Some? <==> pos + width <= |data|
    ensures r.0.Some? ==> r.0.value < BigEndian.Pow256(width) && r.1 == pos + width
    ensures r.0.Some? ==> BigEndian.Encode(r.0.value, width) == data[pos..pos + width]
    ensures r.0.None? ==> r.1 == |data|
  {
    if pos + width <= |data| then
      BigEndian.EncodeDecode(data[pos..pos + width]);
      (Some(BigEndian.Decode(data[pos..pos + width])), pos + width)
    else (None, |data|)
  }

  /** The listener's decoding of a received datagram: a u64 counter then a u128
      timestamp, each read from the cursor and defaulting to 0 when the datagram
      is too short to hold it. Never reads out of bounds. */
  function DecodeDatagram(data: seq<uint8>): (f: Fields)
    ensures |data| < COUNTER_WIDTH ==> f.counter == 0
    ensures |data| < HEADER_SIZE ==> f.timestamp == 0
    ensures |data| >= COUNTER_WIDTH ==> f.counter == BigEndian.Decode(data[..COUNTER_WIDTH])
    ensures |data| >= HEADER_SIZE ==> f.timestamp == BigEndian.Decode(data[COUNTER_WIDTH..HEADER_SIZE])
  {
    BigEndian.Pow256Widths();
    var (counter, pos) := ReadBigEndian(data, 0, COUNTER_WIDTH);
    var (timestamp, _) := ReadBigEndian(data, pos, TIMESTAMP_WIDTH);
    Fields(counter.GetOr(0), timestamp.GetOr(0))
  }

  /** A datagram that starts with the first 24 bytes of a payload decodes to the
      counter and timestamp that payload was built from, whatever follows them. */
  lemma RoundTrip(counter: uint64, timestamp: uint128, data: seq<uint8>)
    requires |data| >= HEADER_SIZE
    requires data[..HEADER_SIZE] == GetPayload(counter, timestamp)[..HEADER_SIZE]
    ensures DecodeDatagram(data) == Fields(counter, timestamp)
  {
    var p := GetPayload(counter, timestamp);
    assert data[..COUNTER_WIDTH] == p[..COUNTER_WIDTH];
    assert data[COUNTER_WIDTH..HEADER_SIZE] == p[COUNTER_WIDTH..HEADER_SIZE];
  }

  /** The payload itself, and the payload followed by the zero bytes that fill
      the rest of the UDP payload area, decode to what was encoded. */
  lemma PaddedRoundTrip(counter: uint64, timestamp: uint128, padding: nat)
    ensures DecodeDatagram(GetPayload(counter, timestamp) + Zeros(padding)) == Fields(counter, timestamp)
  {
    var data := GetPayload(counter, timestamp) + Zeros(padding);
    assert data[..HEADER_SIZE] == GetPayload(counter, timestamp)[..HEADER_SIZE];
    RoundTrip(counter, timestamp, data);
  }

  /** A payload truncated inside the timestamp still yields its counter, with the
      timestamp defaulting to 0. */
  lemma TruncatedPayload(counter: uint64, timestamp: uint128, n: nat)
    requires COUNTER_WIDTH <= n < HEADER_SIZE
    ensures DecodeDatagram(GetPayload(counter, timestamp)[..n]) == Fields(counter, 0)
  {
    var p := GetPayload(counter, timestamp);
    assert p[..n][..COUNTER_WIDTH] == p[..COUNTER_WIDTH];
  }

  /** Distinct (counter, timestamp) pairs give distinct payloads. */
  lemma GetPayloadInjective(c1: uint64, t1: uint128, c2: uint64, t2: uint128)
    requires GetPayload(c1, t1) == GetPayload(c2, t2)
    ensures c1 == c2 && t1 == t2
  {
    PaddedRoundTrip(c1, t1, 0);
    PaddedRoundTrip(c2, t2, 0);
  }

  /** The UDP length field: the packet size less the IPv4 header, computed in
      u16, which underflows (a panic) for packet sizes below 20. In the sender
      this line is never reached with a size below 28: building the IPv4 view
      of the buffer panics below 20 bytes and building the UDP view inside it
      panics below 28, so those panics, not this one, are what a too-small
      size produces. */
  function UdpLength(maxPacketSize: uint16): (r: Outcome<uint16>)
    ensures r.Ok? <==> maxPacketSize >= IPV4_HEADER_SIZE
    ensures r.Ok? ==> r.value + IPV4_HEADER_SIZE == maxPacketSize
    ensures r.Panic? ==> r.fault == LengthUnderflow
  {
    if maxPacketSize < IPV4_HEADER_SIZE then Panic(LengthUnderflow)
    else Ok(maxPacketSize - IPV4_HEADER_SIZE)
  }
}

=== FILE: probelog.dfy ===
/** Correlation between the bounded queue and the probes it stands for. The
    queue is related to an unbounded log of every probe ever sent, in which the
    probe with counter `c` sits at index `c`; the queue is the log's last
    (at most 1000) entries and the sent counter is the log's length. */
module ProbeLog {
  import opened Ints
  import opened Results
  import opened History
  import Payload

  /** Every probe sent so far, indexed by its counter. */
  type Log = seq<Entry>

  /** The part of the log the queue still holds. */
  function Retained(log: Log): (q: seq<Entry>)
    ensures |q| == Min(|log|, MAX_QUEUE_SIZE)
  {
    log[|log| - Min(|log|, MAX_QUEUE_SIZE)..]
  }

  /** `p` is the bounded view of `log`. */
  predicate Abstracts(p: Prober, log: Log) {
    p.sentCounter == |log| && p.queue == Retained(log)
  }

  /** Sending a probe adds it to the log with the placeholder latency. */
  function Send(log: Log, timestamp: uint128): (log': Log)
    ensures |log'| == |log| + 1 && log'[..|log|] == log
  {
    log + [Entry(timestamp, MAX_LATENCY_MILLIS)]
  }

  /** A reply for probe `counter` stores its latency, if that probe was sent. */
  function Answer(log: Log, counter: nat, latency: uint64): (log': Log)
    ensures |log'| == |log|
    ensures forall i :: 0 <= i < |log| ==>
              log'[i] == (if i == counter then Entry(log[i].sent, latency) else log[i])
  {
    if counter < |log| then log[counter := log[counter].(latency := latency)] else log
  }

  /** The counter the probe at position `i` of the queue was sent with. */
  function Tag(p: Prober, i: nat): (counter: int) {
    p.sentCounter - |p.queue| + i
  }

  /** In an abstracted state, queue position `i` holds the probe tagged `Tag(p, i)`. */
  lemma TagIsLogIndex(p: Prober, log: Log, i: nat)
    requires Abstracts(p, log) && i < |p.queue|
    ensures 0 <= Tag(p, i) < |log| && p.queue[i] == log[Tag(p, i)]
  {
  }

  /** A tick adds the probe to the log and keeps the queue its bounded view; the
      payload carries the probe's index in the log. */
  lemma TickRefines(p: Prober, log: Log, timestamp: uint128)
    requires Abstracts(p, log) && |log| + 1 < TWO_TO_THE_64
    ensures Abstracts(Tick(p, timestamp).0, Send(log, timestamp))
    ensures Tick(p, timestamp).1 == |log|
  {
    var log' := Send(log, timestamp);
    var q := Tick(p, timestamp).0.queue;
    var e := Entry(timestamp, MAX_LATENCY_MILLIS);
    if |log| < MAX_QUEUE_SIZE {
      assert q == p.queue + [e];
      assert Retained(log') == log';
    } else {
      var start := |log| - MAX_QUEUE_SIZE;
      assert q == log[start + 1..] + [e];
      assert Retained(log') == log'[start + 1..];
      assert log'[start + 1..] == log[start + 1..] + [e];
    }
  }

  /** The guarded resolve on the queue is exactly the answer on the log: the
      probe with that counter gets the latency if the queue still holds it, and
      nothing else changes. */
  lemma ResolveRefines(p: Prober, log: Log, counter: uint64, latency: uint64)
    requires Abstracts(p, log)
    ensures Abstracts(ResolveChecked(p, counter, latency), Answer(log, counter, latency))
  {
    var r := ResolveChecked(p, counter, latency);
    var log' := Answer(log, counter, latency);
    var start := |log| - |p.queue|;
    assert |log'| == |log|;
    forall i | 0 <= i < |p.queue|
      ensures r.queue[i] == log'[start + i]
    {
      TagIsLogIndex(p, log, i);
    }
    assert r.queue == Retained(log');
  }

  /** A resolve changes at most the entry tagged with the reply's counter, and
      changes it exactly when the queue holds it. */
  lemma ResolveTouchesTagged(p: Prober, counter: uint64, latency: uint64)
    requires |p.queue| <= p.sentCounter
    ensures forall i :: 0 <= i < |p.queue| ==>
              ResolveChecked(p, counter, latency).queue[i] ==
              (if Tag(p, i) == counter then Entry(p.queue[i].sent, latency) else p.queue[i])
  {
  }

  /** A reply for a probe the queue no longer holds makes the listener panic
      on `queue.len() - age`, once more than 1000 probes have been sent. */
  lemma StaleReplyPanics(p: Prober, log: Log, counter: uint64, latency: uint64)
    requires Abstracts(p, log) && counter + MAX_QUEUE_SIZE < |log|
    ensures Resolve(p, counter, latency) == Panic(IndexUnderflow)
  {
  }

  /** An empty datagram decodes to counter 0, which is stale as soon as the
      first probe has been evicted, so it panics the listener too. */
  lemma EmptyDatagramPanics(p: Prober, log: Log, latency: uint64)
    requires Abstracts(p, log) && |log| > MAX_QUEUE_SIZE
    ensures Resolve(p, Payload.DecodeDatagram([]).counter, latency) == Panic(IndexUnderflow)
  {
  }

  /** What the two tasks do to the shared state, one atomic step at a time. */
  datatype Event = Sent(timestamp: uint128) | Replied(counter: uint64, latency: uint64)

  /** One atomic step: a probe sent is a tick, a reply is the guarded resolve. */
  function Step(p: Prober, e: Event): (r: Prober)
    ensures e.Sent? ==> r.sentCounter == Increment(p.sentCounter)
    ensures e.Replied? ==> r.sentCounter == p.sentCounter && |r.queue| == |p.queue|
    ensures |r.queue| <= |p.queue| + 1
    ensures |p.queue| <= MAX_QUEUE_SIZE ==> |r.queue| <= MAX_QUEUE_SIZE
  {
    match e
    case Sent(timestamp) => Tick(p, timestamp).0
    case Replied(counter, latency) => ResolveChecked(p, counter, latency)
  }

  /** The number of probes among `events`. */
  function SentCount(events: seq<Event>): (n: nat)
    ensures n <= |events|
    decreases |events|
  {
    if |events| == 0 then 0 else (if events[0].Sent? then 1 else 0) + SentCount(events[1..])
  }

  /** The state after `events`, taken in order from `p`: the counter counts the
      probes sent, modulo 2^64, and each probe adds at most one entry. */
  function Run(p: Prober, events: seq<Event>): (r: Prober)
    ensures |r.queue| <= |p.queue| + SentCount(events)
    ensures r.sentCounter == (p.sentCounter + SentCount(events)) % TWO_TO_THE_64
    decreases |events|
  {
    if |events| == 0 then p
    else
      var next := Step(p, events[0]);
      var total := p.sentCounter + SentCount(events);
      assert next.sentCounter + SentCount(events[1..]) == total
          || next.sentCounter + SentCount(events[1..]) + TWO_TO_THE_64 == total;
      Run(next, events[1..])
  }

  function StepLog(log: Log, e: Event): (log': Log) {
    match e
    case Sent(timestamp) => Send(log, timestamp)
    case Replied(counter, latency) => Answer(log, counter, latency)
  }

  function RunLog(log: Log, events: seq<Event>): (r: Log)
    ensures |r| == |log| + SentCount(events)
    decreases |events|
  {
    if |events| == 0 then log else RunLog(StepLog(log, events[0]), events[1..])
  }

  /** Any interleaving of ticks and guarded resolves keeps the queue the bounded
      view of the log, so the correlation invariant holds after every step. */
  lemma {:induction false} RunRefines(p: Prober, log: Log, events: seq<Event>)
    requires Abstracts(p, log) && |log| + SentCount(events) < TWO_TO_THE_64
    ensures Abstracts(Run(p, events), RunLog(log, events))
    decreases |events|
  {
    if |events| > 0 {
      match events[0] {
        case Sent(timestamp) => TickRefines(p, log, timestamp);
        case Replied(counter, latency) => ResolveRefines(p, log, counter, latency);
      }
      RunRefines(Step(p, events[0]), StepLog(log, events[0]), events[1..]);
    }
  }

  /** After the counter wraps the guarded step is no longer the release build:
      with the counter back at 0 and a full queue, a reply for the last counter
      before the wrap is placed by the wrapping arithmetic on the last entry,
      the probe sent with that counter, while the guarded step drops it. */
  lemma AfterWrapDiffers()
    ensures var p := Prober(seq(MAX_QUEUE_SIZE, i => Entry(0, MAX_LATENCY_MILLIS)), 0);
            ResolveWrapping(p, TWO_TO_THE_64 - 1, 5) != ResolveChecked(p, TWO_TO_THE_64 - 1, 5)
  {
    var p := Prober(seq(MAX_QUEUE_SIZE, i => Entry(0, MAX_LATENCY_MILLIS)), 0);
    var counter := TWO_TO_THE_64 - 1;
    assert (p.sentCounter - counter) % TWO_TO_THE_64 == 1;
    assert ResolveChecked(p, counter, 5) == p;
    assert ResolveWrapping(p, counter, 5).queue[MAX_QUEUE_SIZE - 1].latency == 5;
  }

  /** Any number of steps keeps a queue within the bound within it. */
  lemma {:induction false} RunBounded(p: Prober, events: seq<Event>)
    requires |p.queue| <= MAX_QUEUE_SIZE
    ensures |Run(p, events).queue| <= MAX_QUEUE_SIZE
    decreases |events|
  {
    if |events| > 0 {
      RunBounded(Step(p, events[0]), events[1..]);
    }
  }

  /** From the initial state, the queue never holds more than 1000 entries,
      however long the run and whether or not the counter wraps. */
  lemma QueueBounded(events: seq<Event>)
    ensures |Run(Initial, events).queue| <= MAX_QUEUE_SIZE
  {
    RunBounded(Initial, events);
  }

  /** The listener reads the sent counter before it takes the queue lock. If a
      whole tick runs in between, the index it computes from the old counter
      and the new queue names the probe sent after the one the reply is for,
      and that probe's latency is overwritten. */
  lemma TickBetweenReadAndLock(p: Prober, log: Log, counter: uint64, latency: uint64, timestamp: uint128)
    requires Abstracts(p, log) && |log| + 1 < TWO_TO_THE_64
    requires counter < p.sentCounter && p.sentCounter - counter <= |p.queue|
    ensures var q := Tick(p, timestamp).0;
            var r := Resolve(Prober(q.queue, p.sentCounter), counter, latency);
            var index := |q.queue| - (p.sentCounter - counter);
            && r.Ok? && 0 <= index < |q.queue|
            && Tag(q, index) == counter + 1
            && r.value.queue == SetLatency(q.queue, index, latency)
  {
    TickRefines(p, log, timestamp);
  }
}

=== FILE: sorting.dfy ===
/** Ascending sort of a latency list (`sort_unstable` on a `Vec<u64>`), as an
    insertion sort over sequences, and the uniqueness of a sorted permutation. */
module Sorting {

  predicate Sorted(s: seq<int>) {
    forall i, j :: 0 <= i < j < |s| ==> s[i] <= s[j]
  }

  /** `s` with `x` placed before the first element not below it. */
  function Insert(x: int, s: seq<int>): (r: seq<int>)
    requires Sorted(s)
    ensures Sorted(r)
    ensures multiset(r) == multiset(s) + multiset{x}
  {
    if |s| == 0 then [x]
    else if x <= s[0] then [x] + s
    else
      var rest := Insert(x, s[1..]);
      assert s == [s[0]] + s[1..];
      assert forall k :: 0 <= k < |rest| ==> s[0] <= rest[k] by {
        forall k | 0 <= k < |rest|
          ensures s[0] <= rest[k]
        {
          assert rest[k] in multiset(rest);
        }
      }
      [s[0]] + rest
  }

  /** The elements of `s` in ascending order. */
  function Sort(s: seq<int>): (r: seq<int>)
    ensures Sorted(r)
    ensures multiset(r) == multiset(s)
  {
    if |s| == 0 then []
    else
      assert s == [s[0]] + s[1..];
      Insert(s[0], Sort(s[1..]))
  }

  /** A sorted sequence begins with its least element. */
  lemma SortedHeadIsLeast(s: seq<int>, x: int)
    requires Sorted(s) && x in multiset(s)
    ensures s[0] <= x
  {
  }

  /** Two sorted sequences with the same elements are equal: the sorted order of
      a multiset does not depend on how it was sorted. */
  lemma {:induction false} SortedUnique(a: seq<int>, b: seq<int>)
    requires Sorted(a) && Sorted(b)
    requires multiset(a) == multiset(b)
    ensures a == b
    decreases |a|
  {
    assert |a| == |multiset(a)| == |multiset(b)| == |b|;
    if |a| > 0 {
      assert a[0] in multiset(b) && b[0] in multiset(a);
      SortedHeadIsLeast(a, b[0]);
      SortedHeadIsLeast(b, a[0]);
      assert a[0] == b[0];
      assert a == [a[0]] + a[1..] && b == [b[0]] + b[1..];
      assert multiset(a) == multiset{a[0]} + multiset(a[1..]);
      assert multiset(b) == multiset{b[0]} + multiset(b[1..]);
      assert multiset(a[1..]) == multiset(a) - multiset{a[0]};
      assert multiset(b[1..]) == multiset(b) - multiset{b[0]};
      SortedUnique(a[1..], b[1..]);
    }
  }

  /** A sorted non-empty sequence is bounded by its first and last elements. */
  lemma SortedExtremes(s: seq<int>)
    requires Sorted(s) && |s| > 0
    ensures forall x :: x in s ==> s[0] <= x <= s[|s| - 1]
  {
  }

  /** Sequences with the same multiset have the same members. */
  lemma SameMembers<T>(a: seq<T>, b: seq<T>)
    requires multiset(a) == multiset(b)
    ensures forall x :: x in a <==> x in b
  {
    forall x
      ensures x in a <==> x in b
    {
      assert x in a <==> x in multiset(a);
      assert x in b <==> x in multiset(b);
    }
  }
}
